=== FILE: README.md ===
# DB-Flow core, modelled in Dafny

DB-Flow is a set of small HTTP services in front of a three-node MongoDB replica
set (`rs0` on `mongo1..3:27017`), plus test tooling. Its own logic is small and
sequential, and this project models it in three parts:

- **Operation monitor** (`Monitor`, in `monitor.dfy`). This is the performance tooling's
  `PerformanceMonitor`. It keeps an append-only log in two lists: successes in
  `operations`, failures in `errors`. A transparent wrapper records exactly one
  entry per call. A statistics function reports count, success rate, min, max and
  mean latency, and the latest memory and CPU samples. The report document is
  also modelled.
- **Connection supervision and health** (`Supervisor`, `Health`, `Topology`).
  - The two service variants share a connect/retry state machine. Each failed
    attempt schedules exactly one retry after a fixed delay: 10 s in the
    listen-first service, 5 s in the connect-then-listen service.
  - There is no backoff, no attempt limit and no failure state.
  - The listen-first service starts listening before its first attempt. The
    connect-then-listen service listens only in the success branch of an attempt.
  - The environment is a sequence of attempt outcomes.
  - The `/health` handlers map the driver's `readyState` to `connected` exactly when
    it is 1.
  - The interrupt handler closes the store connection only when it is open.
  - The connection string and port fall back to their defaults under JavaScript's
    `||` rule.
- **Replica-set bootstrap** (`ReplicaInit`, `Topology`).
  - `initReplicaSet` sends a status query. The query and the close after it share
    one `try`, so one initiate command follows when the query fails and also when
    the query succeeds but that close fails. `waitForMongo` retries every 5 s until
    a run succeeds.
  - The one-shot bootstrap builds its member list from `[0, 1, 2]` and sends the
    initiate command once.
  - The store is abstracted as a `Cluster`: `Unreachable`, `Uninitialised` or
    `Initialised`. An uninitialised store accepts the initiate only when the other
    members are up (`peersUp`), which is a free choice of each round.
  - The member lists are pure values. Their shape (ids, hosts, priorities) is
    proved, including that host names are distinct. That proof rests on a decimal
    rendering with a proved parse round trip (`Decimal`).

The monitor keeps two quirks of the code:
- Only successes are appended to `operations`, so the success rate is exactly 100
  whenever anything succeeded. It is `NaN` (0/0) when the log has no successes.
- Failures are counted only through `errors`.

## Model

| member | source | states |
|---|---|---|
| Monitor.NewMonitor | tests/performance/monitor.js:5-13 | A new monitor starts at the given clock reading with all four lists empty, and satisfies the all-successes invariant. |
| Monitor.MonitorMemory | tests/performance/monitor.js:16-25 | A memory sample is appended to `memoryUsage`. The operation and error logs are unchanged and the invariant is kept. |
| Monitor.MonitorCpu | tests/performance/monitor.js:28-38 | A CPU sample is appended to `cpuUsage`. The operation and error logs are unchanged and the invariant is kept. |
| Monitor.MonitorDBOperation | tests/performance/monitor.js:41-65 | Each call appends exactly one record. On success the record goes to `operations` with `success: true` and `errors` is untouched. On failure it goes to `errors` with the error's message and `operations` is untouched. The operation's own value or error is handed back unchanged. Every other field is kept, and so is the all-successes invariant. |
| Monitor.MonitorAllRecordsEachCall | tests/performance/monitor.js:41-65 | Over any sequence of calls, `operations` grows by the number of successes and `errors` by the number of failures. Existing entries stay as a prefix, and the invariant is preserved. |
| Monitor.Successful | tests/performance/monitor.js:70 | The filter keeps exactly the entries with `success` set: every kept entry succeeded and comes from the log, and every successful log entry is kept. |
| Monitor.MaxOf | tests/performance/monitor.js:83 | `Math.max` over a non-empty list is an element of the list and is at least every element. |
| Monitor.MinOf | tests/performance/monitor.js:86 | `Math.min` over a non-empty list is an element of the list and is at most every element. |
| Monitor.SuccessRate | tests/performance/monitor.js:78 | The rate is NaN exactly when the operation count is 0. Otherwise it is `successful / total * 100`: a percentage between 0 and 100, and exactly 100 when all operations succeeded. |
| Monitor.Last | tests/performance/monitor.js:88-93 | The reported sample is the last element of the list, or none when the list is empty. |
| Monitor.LatencyBounds | tests/performance/monitor.js:79-87 | With no successful entries, average, max and min are 0. Otherwise `min <= mean <= max`, min and max bound every successful duration, and each of them is the duration of some successful entry. |
| Monitor.GenerateStats | tests/performance/monitor.js:68-97 | `totalDuration` is the time since start. `totalOperations` is the length of `operations` and `failedOperations` the length of `errors`. Successful operations never exceed the total. The rate is NaN exactly when there are no operations. The latency bounds hold, and memory and CPU are the last samples or none. |
| Monitor.ValidStats | tests/performance/monitor.js:70-78 | In every log the wrapper builds, successful operations equal total operations. So the rate is exactly 100 when `operations` is non-empty and NaN when it is empty. |
| Monitor.StatsRepeatable | tests/performance/monitor.js:68-97 | Two calls without new operations agree on every field except `totalDuration`. `totalDuration` differs by exactly the clock difference. |
| Monitor.StatsAfterSuccess | tests/performance/monitor.js:43-87 | After a successful call of duration `d`, the total and successful counts go up by one and the failed count is unchanged. Max becomes `d` if `d` is larger (or if it is the first success), and likewise for min. The new mean is the weighted mean of the old mean and `d`. |
| Monitor.MeanAfterSuccess | tests/performance/monitor.js:79-81 | Appending one success of duration `d` to `n` successes turns the mean into `(n * mean + d) / (n + 1)`. |
| Monitor.StatsAfterFailure | tests/performance/monitor.js:55-77 | A failed call changes nothing in the statistics except `failedOperations`, which goes up by one. |
| Monitor.BuildReport | tests/performance/monitor.js:100-108 | The report's timestamp is the given clock reading. It carries the monitor's current lists unchanged, and `stats` is the statistics at that moment. So its counts describe the lists it carries. |
| Health.DbStatus | routes/health.js:7 | The status word is `connected` if and only if `readyState` is 1, and `disconnected` for every other value. |
| Health.ServerHealth | app/server.js:16-23 | `mongodb` is `connected` exactly when `readyState` is 1 and `disconnected` otherwise. `status` is always `ok` and `server` is always `running`. |
| Health.AppHealth | app.js:10-17 | `mongodb` is `connected` exactly when `readyState` is 1 and `disconnected` otherwise. `status` is always `ok` and the given timestamp is included. |
| Health.RouteHealth | routes/health.js:5-9 | The HTTP status is always 200 and `status` is always `ok`. `db` is `connected` if and only if `readyState` is 1. |
| Supervisor.Start | app/server.js:38-63 | At start-up exactly one attempt is in flight and no timer is pending. The process is listening exactly in the listen-first variant. |
| Supervisor.AttemptFinished | app/server.js:46-60 | A successful attempt schedules nothing, and in the connect-then-listen variant it calls `listen` once. A failed attempt schedules exactly one retry, with the variant's fixed delay, and leaves listening unchanged. The reachable-state invariant is kept. |
| Supervisor.RetryFired | app/server.js:58 | Only a pending retry timer starts a new attempt. It leaves no timer pending and adds one attempt. |
| Supervisor.DriveOutcome | app.js:23-43 | From an in-flight attempt: the process ends online iff some outcome succeeds, and waiting for a retry iff none does. Failures equal the outcomes before the first success. Attempts stop at the first success. |
| Supervisor.RunOutcome | app/server.js:46-63 | After start-up the process is online iff some attempt succeeded. If all attempts failed, every outcome was consumed by an attempt and exactly one retry is pending. There is one scheduled retry per failure, each with the variant's fixed delay (10000 ms or 5000 ms). |
| Supervisor.DriveStopsAtSuccess | app.js:31-40 | Outcomes after the first success are never consumed. Once an attempt succeeds, nothing more is scheduled. |
| Supervisor.ListenDiscipline | app.js:23-43 | In the connect-then-listen variant, `listen` is called at most once. It is called iff an attempt succeeded, and only while connected. In the listen-first variant it is called exactly once, whatever the outcomes. |
| Supervisor.ListeningWhileDisconnected | app/server.js:38-63 | In the listen-first variant, a failed first attempt leaves the process listening, waiting for a retry, and reporting the store as disconnected. |
| Supervisor.HealthAfterRun | app/server.js:16-23 | After start-up, both `/health` bodies report `connected` iff some connect attempt succeeded. |
| Supervisor.OnSigint | app/server.js:66-78 | On interrupt, the HTTP server is closed first. The store connection is closed iff `readyState` is 1. The server is closed once and the store at most once: two steps, or three when the store is closed. The last step is exit with code 0, and nothing exits earlier. |
| Supervisor.SigintAfterRun | app/server.js:66-78 | An interrupt after start-up closes the store connection iff some connect attempt succeeded. |
| Topology.ResolveMongoUri | app/server.js:44 | A set, non-empty `MONGODB_URI` is used as given. An unset or empty one selects the default connection string. The result is never empty. |
| Topology.EnvOr | app.js:6 | JavaScript's `||` on an environment string gives the variable when it is set and non-empty, and the fallback otherwise. |
| Topology.DefaultMongoUriNamesReplicaSet | app/server.js:44 | The default connection string names exactly the three replica members' hosts, in order, and replica set `rs0`. |
| Topology.ResolvePort | app.js:5 | The port is the `PORT` string when it is set and non-empty, and 3000 otherwise. |
| Topology.InitScriptConfigShape | app/mongo-init.js:24-31 | The initiate configuration has set id `rs0` and three members with ids 0, 1, 2 in ascending order. Their hosts are `mongo1..3:27017`, pairwise distinct, and the same as the one-shot bootstrap's. Member 0 has strictly the highest priority. |
| Topology.BootstrapMembers | database/mongo-init.js:11-14 | Mapping the ids gives one member per id, in order. Each member has that `_id`, host `mongo<id+1>:27017`, and no priority. |
| Topology.BootstrapHostsDistinct | database/mongo-init.js:11-14 | For any list of pairwise distinct ids, the generated hosts are pairwise distinct. |
| Topology.BootstrapConfigShape | database/mongo-init.js:10-14 | The one-shot configuration has set id `rs0` and exactly three members. Their ids equal their positions and ascend. Their hosts are `mongo1:27017`, `mongo2:27017` and `mongo3:27017`, all distinct. |
| Topology.HostInjective | database/mongo-init.js:13 | Two member ids give the same host name iff they are equal. |
| Decimal.ParseNatToString | database/mongo-init.js:13 | Reading back the decimal rendering of a number gives that number. |
| ReplicaInit.InitReplicaSet | app/mongo-init.js:4-42 | If connecting fails, nothing is sent and the run returns false. Otherwise the status query goes first. If it succeeds and the close succeeds, only the query is sent and the run returns true. If the query fails, or it succeeds but the close after it fails, exactly one initiate with the fixed configuration follows, and the run returns true iff that initiate and the following close succeed. A run returns true only after closing the client. |
| ReplicaInit.WaitForMongo | app/mongo-init.js:45-61 | The loop exits with code 0 iff some run succeeds, at the first such run. It waits 5000 ms after every failed run before it. If no run succeeds, it has consumed every run and waited after each. |
| ReplicaInit.RunOnCluster | app/mongo-init.js:15-36 | On an existing set with a working close, no initiate is sent and the run returns true. An existing set's membership is never changed. An uninitialised set receives exactly one initiate. It accepts it iff the other members are up, and the run returns true iff it was accepted and the close succeeds. An unreachable store receives nothing. |
| ReplicaInit.InitIdempotent | app/mongo-init.js:15-19 | On a reachable store, a set exists after the first run iff it existed before or the first initiate was accepted. If it exists, a second run returns true, sends no initiate, and leaves the membership unchanged. If the first initiate was rejected, the second run sends the initiate again. |
| ReplicaInit.BootstrapInitiatesOnce | app/mongo-init.js:45-61 | Across all retries the set is initiated at most once, and never when it already existed. The loop exits only once a replica set exists. |
| ReplicaInit.BootstrapExitsOnGoodRound | app/mongo-init.js:45-61 | The retry loop exits once any round finds the node reachable, the other members up and both closes working. |
| ReplicaInit.BootstrapWaitsForPeers | app/mongo-init.js:45-61 | Starting without a replica set, while the other members stay down, no initiate is accepted, no set appears and the loop never exits. |
| ReplicaInit.OneShotBootstrap | database/mongo-init.js:3-20 | The one-shot bootstrap never sends a status query and sends at most one command: the initiate with the generated member list, sent iff connecting succeeds. It logs success iff connecting and initiating both succeed, and otherwise logs the failure without raising it. |
| ReplicaInit.OneShotOnCluster | database/mongo-init.js:8-20 | On the abstract cluster, the one-shot bootstrap succeeds exactly against a reachable node without a replica set whose other members are up. Against an existing set, or while the other members are down, the failure is logged. |

## Left out

- Transactions, TTL indexes, read preference, write concern, failover and the other
  store behaviours that the MongoDB test suites exercise belong to the store, not to
  this code.
- Express routing, response serialisation and the mongoose/MongoDB driver are
  external. `connect`, the status query, the initiate command and `close` are
  environment outcomes (`InitEnv`, outcome sequences).
- `readyState` is an integer handed to the handlers. `Supervisor.ReadyState` is an
  abstraction that maps the phases to 2 (connecting), 1 (connected) and 0 (between
  attempts). Mongoose's own transitions are not modelled.
- Timers and real time are left out. Retry delays are constants attached to the
  transitions that schedule them. In `Supervisor.Drive` a pending retry fires as soon
  as another outcome is supplied.
- Driver options such as `serverSelectionTimeoutMS` and `useUnifiedTopology` are not
  modelled.
- `process.memoryUsage`, `process.cpuUsage` and the 100 ms delay of the CPU sample are
  left out, because they are I/O. Samples are parameters of `MonitorMemory` and
  `MonitorCpu`.
- Writing the report file and all console output are left out, because they are I/O.
  That includes `printStats`, which only prints `generateStats`' result.
- Monitor.GenerateStats: rate and average are exact reals, not the two-decimal
  strings `toFixed` produces. In the code the average is a string when there are
  successes and the number 0 otherwise. The code spreads every successful duration
  into `Math.max(...)` and `Math.min(...)`, which throw `RangeError` beyond the
  engine's argument-count limit (around 10^5 in V8); the model has no such limit
  and always returns statistics.
- Monitor.BuildReport: the timestamp is the clock reading, not its ISO-8601
  rendering.
- app.js ends mid-statement inside its SIGINT handler (app.js:45-48), so that
  handler is not modelled.
- Supervisor.AttemptFinished: `listen` is assumed not to throw. In the
  connect-then-listen service `app.listen` sits in the same `try` as the connect
  (app.js:25-40), so a synchronous throw (an invalid `PORT` such as `70000`) would be
  caught as a failed attempt, logged, and retried 5 s later although the store is
  connected.
- Supervisor.ListenDiscipline: for the same reason, `listenCalls <= 1` assumes
  `app.listen` does not throw; with a throwing `listen` every retry would call it
  again.
- The `finally` block of the one-shot bootstrap closes a client that is out of
  scope there. That is a runtime error, not behaviour, so it is not modelled.
- The `catch` branch of `waitForMongo` cannot be reached: `initReplicaSet` turns
  every error into `false`. `ReplicaInit.WaitForMongo` therefore has no exception
  path.
- Monitor.MonitorDBOperation: the wrapped operation is assumed to fail with an
  Error object, whose `message` is recorded. A rejection with `null` or `undefined`
  makes the `catch` itself throw before anything is recorded, and a rejected string
  records an undefined message; neither is modelled.
- Monitor.MonitorAllRecordsEachCall: calls run concurrently (under `Promise.all`)
  are modelled by their completion order. Each record is appended in one step when
  its call settles, so the log is that sequence; overlapping clock windows are
  allowed, since every call carries its own clock readings.
- Topology.HostInjective: ids are exact integers. A JavaScript number loses
  exactness from 2^53 and renders in exponent notation from 10^21, so the same
  property fails there for huge ids; the scripts only map the ids 0, 1 and 2.
  The same holds for Topology.BootstrapHostsDistinct and Decimal.ParseNatToString.
- Load and performance runner scripts, faker-driven request processing, the thin
  server/controller wrappers and the test configuration hold no logic statable here.

=== FILE: decimal.dfy ===
/** Decimal rendering of natural numbers, together with its inverse. It agrees
    with what a JavaScript template literal (`${id + 1}`) produces for the small
    integers the scripts use; JavaScript numbers lose exactness from 2^53 and
    switch to exponent notation from 10^21, which this exact rendering does not. */
module Decimal {

  predicate IsDigit(c: char) {
    '0' <= c <= '9'
  }

  function DigitChar(d: nat): (c: char)
    requires d < 10
    ensures IsDigit(c)
  {
    (48 + d) as char
  }

  function DigitValue(c: char): (d: nat)
    requires IsDigit(c)
    ensures d < 10
  {
    (c as int - 48) as nat
  }

  /** Shortest decimal representation of `n`, without sign or leading zeros. */
  function NatToString(n: nat): (s: string)
    ensures |s| >= 1
    ensures forall i :: 0 <= i < |s| ==> IsDigit(s[i])
    ensures |s| == 1 <==> n < 10
    decreases n
  {
    if n < 10 then [DigitChar(n)] else NatToString(n / 10) + [DigitChar(n % 10)]
  }

  /** Reads a string of decimal digits back as a natural number. */
  function ParseNat(s: string): (n: nat)
    requires forall i :: 0 <= i < |s| ==> IsDigit(s[i])
    decreases |s|
  {
    if |s| == 0 then 0 else ParseNat(s[..|s| - 1]) * 10 + DigitValue(s[|s| - 1])
  }

  /** Parsing undoes rendering. */
  lemma {:induction false} ParseNatToString(n: nat)
    ensures ParseNat(NatToString(n)) == n
    decreases n
  {
    var s := NatToString(n);
    if n < 10 {
      assert s[..|s| - 1] == [];
    } else {
      ParseNatToString(n / 10);
      assert s[..|s| - 1] == NatToString(n / 10);
      assert s[|s| - 1] == DigitChar(n % 10);
    }
  }

  /** Distinct numbers render to distinct strings. */
  lemma NatToStringInjective(a: nat, b: nat)
    ensures NatToString(a) == NatToString(b) <==> a == b
  {
    if NatToString(a) == NatToString(b) {
      ParseNatToString(a);
      ParseNatToString(b);
    }
  }
}

=== FILE: health.dfy ===
/** The `/health` handlers of the three service variants. Each one reads the
    driver's integer `readyState` and reports the store as connected exactly when
    it is 1; nothing else about the process enters the answer. */
module Health {

  /** The driver's `readyState` value for an open connection. */
  const ReadyConnected: int := 1

  const StatusOk: string := "ok"
  const ServerRunning: string := "running"
  const DbConnected: string := "connected"
  const DbDisconnected: string := "disconnected"

  /** The store status word the handlers put in their bodies. */
  function DbStatus(readyState: int): (s: string)
    ensures s == DbConnected <==> readyState == ReadyConnected
    ensures s == DbDisconnected <==> readyState != ReadyConnected
  {
    if readyState == ReadyConnected then DbConnected else DbDisconnected
  }

  /** Body of `/health` in the listen-first service. */
  datatype ServerHealthBody = ServerHealthBody(status: string, server: string, mongodb: string)

  function ServerHealth(readyState: int): (b: ServerHealthBody)
    ensures b.status == "ok" && b.server == "running"
    ensures b.mongodb == "connected" <==> readyState == 1
    ensures b.mongodb == "disconnected" <==> readyState != 1
  {
    ServerHealthBody(StatusOk, ServerRunning, DbStatus(readyState))
  }

  /** Body of `/health` in the connect-then-listen service; `timestamp` is the
      clock reading rendered by the caller. */
  datatype AppHealthBody = AppHealthBody(status: string, mongodb: string, timestamp: string)

  function AppHealth(readyState: int, timestamp: string): (b: AppHealthBody)
    ensures b.status == "ok" && b.timestamp == timestamp
    ensures b.mongodb == "connected" <==> readyState == 1
    ensures b.mongodb == "disconnected" <==> readyState != 1
  {
    AppHealthBody(StatusOk, DbStatus(readyState), timestamp)
  }

  /** Response of the router's `/health` handler: HTTP status and body. */
  datatype RouteHealthBody = RouteHealthBody(status: string, db: string)
  datatype RouteResponse = RouteResponse(httpStatus: nat, body: RouteHealthBody)

  function RouteHealth(readyState: int): (r: RouteResponse)
    ensures r.httpStatus == 200 && r.body.status == "ok"
    ensures r.body.db == "connected" <==> readyState == 1
    ensures r.body.db == "disconnected" <==> readyState != 1
  {
    RouteResponse(200, RouteHealthBody(StatusOk, DbStatus(readyState)))
  }
}

=== FILE: monitor.dfy ===
/** The performance monitor of the test tooling: an append-only log of timed store
    operations kept as two lists (successes in `operations`, failures in
    `errors`), a transparent wrapper that records one entry per call, and the
    summary statistics computed over the log.

    Clock readings are parameters; durations are their differences in
    milliseconds. Averages and rates are exact reals instead of the two-decimal
    strings the tooling prints. */
module Monitor {
  import opened Wrappers

  /** An entry of `operations`. Only the wrapper's success branch appends here, so
      `success` is always true in a log the wrapper built. */
  datatype OpRecord = OpRecord(name: string, duration: int, success: bool, timestamp: int)

  /** An entry of `errors`: the wrapped operation threw an error with `error` as message. */
  datatype ErrorRecord = ErrorRecord(name: string, error: string, duration: int, timestamp: int)

  datatype MemorySample = MemorySample(timestamp: int, rss: nat, heapUsed: nat, heapTotal: nat, external: nat)

  datatype CpuSample = CpuSample(timestamp: int, user: nat, system: nat)

  datatype Metrics = Metrics(
    startTime: int,
    operations: seq<OpRecord>,
    errors: seq<ErrorRecord>,
    memoryUsage: seq<MemorySample>,
    cpuUsage: seq<CpuSample>
  )

  /** A fresh monitor created at clock reading `now`. */
  function NewMonitor(now: int): (m: Metrics)
    ensures Valid(m)
    ensures m.startTime == now
    ensures |m.operations| == |m.errors| == |m.memoryUsage| == |m.cpuUsage| == 0
  {
    Metrics(now, [], [], [], [])
  }

  /** Appends a memory sample taken by the caller. */
  function MonitorMemory(m: Metrics, sample: MemorySample): (m': Metrics)
    ensures m'.memoryUsage == m.memoryUsage + [sample]
    ensures m'.operations == m.operations && m'.errors == m.errors && m'.cpuUsage == m.cpuUsage
    ensures Valid(m) ==> Valid(m')
  {
    m.(memoryUsage := m.memoryUsage + [sample])
  }

  /** Appends a CPU sample (the tooling takes it 100 ms after the call). */
  function MonitorCpu(m: Metrics, sample: CpuSample): (m': Metrics)
    ensures m'.cpuUsage == m.cpuUsage + [sample]
    ensures m'.operations == m.operations && m'.errors == m.errors && m'.memoryUsage == m.memoryUsage
    ensures Valid(m) ==> Valid(m')
  {
    m.(cpuUsage := m.cpuUsage + [sample])
  }

  /** A thrown error; only its message is recorded. */
  datatype Error = Error(message: string)

  /** How the wrapped operation completed. */
  datatype Outcome<T> = Returned(value: T) | Threw(error: Error)

  /** The clock readings of one monitored call: before the operation, right after it
      (for the duration) and when the record is built (for its timestamp). */
  datatype Clock = Clock(start: int, finish: int, stamp: int)

  function Duration(c: Clock): int {
    c.finish - c.start
  }

  /** The invariant of every log the wrapper builds: all `operations` entries succeeded. */
  predicate Valid(m: Metrics) {
    forall i :: 0 <= i < |m.operations| ==> m.operations[i].success
  }

  /** Runs a store operation under monitoring: exactly one record is appended, to
      `operations` on success and to `errors` on failure, and the operation's own
      outcome (its value, or the very error it threw) is handed back unchanged. */
  function MonitorDBOperation<T>(m: Metrics, name: string, clock: Clock, outcome: Outcome<T>): (r: (Metrics, Outcome<T>))
    ensures r.1 == outcome
    ensures |r.0.operations| + |r.0.errors| == |m.operations| + |m.errors| + 1
    ensures outcome.Returned? ==>
              && r.0.operations == m.operations + [OpRecord(name, Duration(clock), true, clock.stamp)]
              && r.0.errors == m.errors
    ensures outcome.Threw? ==>
              && r.0.errors == m.errors + [ErrorRecord(name, outcome.error.message, Duration(clock), clock.stamp)]
              && r.0.operations == m.operations
    ensures r.0.startTime == m.startTime && r.0.memoryUsage == m.memoryUsage && r.0.cpuUsage == m.cpuUsage
    ensures Valid(m) ==> Valid(r.0)
  {
    match outcome
    case Returned(_) =>
      (m.(operations := m.operations + [OpRecord(name, Duration(clock), true, clock.stamp)]), outcome)
    case Threw(e) =>
      (m.(errors := m.errors + [ErrorRecord(name, e.message, Duration(clock), clock.stamp)]), outcome)
  }

  /** One monitored call, as the environment answers it. */
  datatype Call<T> = Call(name: string, clock: Clock, outcome: Outcome<T>)

  /** Monitors the calls one after another. */
  function MonitorAll<T>(m: Metrics, calls: seq<Call<T>>): (m': Metrics)
    decreases |calls|
  {
    if |calls| == 0 then m
    else MonitorAll(MonitorDBOperation(m, calls[0].name, calls[0].clock, calls[0].outcome).0, calls[1..])
  }

  function CountReturned<T>(calls: seq<Call<T>>): (n: nat)
    ensures n <= |calls|
  {
    if |calls| == 0 then 0 else (if calls[0].outcome.Returned? then 1 else 0) + CountReturned(calls[1..])
  }

  /** One record per call, whatever the calls do: the successes land in `operations`
      and the failures in `errors`, after the existing entries. Calls started together
      are listed in the order they complete, since each record is appended in one
      step when its call settles. */
  lemma {:induction false} MonitorAllRecordsEachCall<T>(m: Metrics, calls: seq<Call<T>>)
    ensures |MonitorAll(m, calls).operations| == |m.operations| + CountReturned(calls)
    ensures |MonitorAll(m, calls).errors| == |m.errors| + (|calls| - CountReturned(calls))
    ensures MonitorAll(m, calls).operations[..|m.operations|] == m.operations
    ensures MonitorAll(m, calls).errors[..|m.errors|] == m.errors
    ensures Valid(m) ==> Valid(MonitorAll(m, calls))
    decreases |calls|
  {
    if |calls| > 0 {
      var m1 := MonitorDBOperation(m, calls[0].name, calls[0].clock, calls[0].outcome).0;
      MonitorAllRecordsEachCall(m1, calls[1..]);
      var m' := MonitorAll(m1, calls[1..]);
      assert m'.operations[..|m.operations|] == m'.operations[..|m1.operations|][..|m.operations|];
      assert m'.errors[..|m.errors|] == m'.errors[..|m1.errors|][..|m.errors|];
    }
  }

  // ---------------------------------------------------------------------------
  // Aggregates over the log

  /** The entries with `success` set, in log order. */
  function Successful(ops: seq<OpRecord>): (r: seq<OpRecord>)
    ensures |r| <= |ops|
    ensures forall i :: 0 <= i < |r| ==> r[i].success && r[i] in ops
    ensures forall i :: 0 <= i < |ops| && ops[i].success ==> ops[i] in r
    decreases |ops|
  {
    if |ops| == 0 then []
    else (if ops[0].success then [ops[0]] else []) + Successful(ops[1..])
  }

  lemma {:induction false} SuccessfulOfValid(ops: seq<OpRecord>)
    requires forall i :: 0 <= i < |ops| ==> ops[i].success
    ensures Successful(ops) == ops
    decreases |ops|
  {
    if |ops| > 0 {
      SuccessfulOfValid(ops[1..]);
    }
  }

  lemma {:induction false} SuccessfulAppend(ops: seq<OpRecord>, op: OpRecord)
    ensures Successful(ops + [op]) == Successful(ops) + (if op.success then [op] else [])
    decreases |ops|
  {
    if |ops| == 0 {
      assert ops + [op] == [op];
    } else {
      var head := if ops[0].success then [ops[0]] else [];
      var tail := if op.success then [op] else [];
      assert (ops + [op])[0] == ops[0];
      assert (ops + [op])[1..] == ops[1..] + [op];
      assert Successful(ops + [op]) == head + Successful(ops[1..] + [op]);
      SuccessfulAppend(ops[1..], op);
      assert Successful(ops[1..] + [op]) == Successful(ops[1..]) + tail;
      assert head + (Successful(ops[1..]) + tail) == (head + Successful(ops[1..])) + tail;
    }
  }

  function Durations(ops: seq<OpRecord>): (ds: seq<int>)
    ensures |ds| == |ops|
    ensures forall i :: 0 <= i < |ops| ==> ds[i] == ops[i].duration
  {
    seq(|ops|, i requires 0 <= i < |ops| => ops[i].duration)
  }

  /** The largest element (`Math.max` over a non-empty list). */
  function MaxOf(xs: seq<int>): (r: int)
    requires |xs| > 0
    ensures r in xs
    ensures forall i :: 0 <= i < |xs| ==> xs[i] <= r
    decreases |xs|
  {
    if |xs| == 1 then xs[0]
    else
      var rest := MaxOf(xs[1..]);
      if xs[0] >= rest then xs[0] else rest
  }

  /** The smallest element (`Math.min` over a non-empty list). */
  function MinOf(xs: seq<int>): (r: int)
    requires |xs| > 0
    ensures r in xs
    ensures forall i :: 0 <= i < |xs| ==> r <= xs[i]
    decreases |xs|
  {
    if |xs| == 1 then xs[0]
    else
      var rest := MinOf(xs[1..]);
      if xs[0] <= rest then xs[0] else rest
  }

  function Sum(xs: seq<int>): int
    decreases |xs|
  {
    if |xs| == 0 then 0 else xs[0] + Sum(xs[1..])
  }

  lemma {:induction false} SumAppend(xs: seq<int>, x: int)
    ensures Sum(xs + [x]) == Sum(xs) + x
    decreases |xs|
  {
    if |xs| == 0 {
      assert xs + [x] == [x];
    } else {
      assert (xs + [x])[1..] == xs[1..] + [x];
      SumAppend(xs[1..], x);
    }
  }

  /** A sum of `n` values lies between `n` times any lower and upper bound of them. */
  lemma {:induction false} SumBetween(xs: seq<int>, lo: int, hi: int)
    requires forall i :: 0 <= i < |xs| ==> lo <= xs[i] <= hi
    ensures |xs| * lo <= Sum(xs) <= |xs| * hi
    decreases |xs|
  {
    if |xs| > 0 {
      SumBetween(xs[1..], lo, hi);
      assert |xs| * lo == (|xs| - 1) * lo + lo;
      assert |xs| * hi == (|xs| - 1) * hi + hi;
    }
  }

  lemma DivBetween(lo: int, hi: int, sum: int, n: nat)
    requires n > 0 && n * lo <= sum <= n * hi
    ensures lo as real <= sum as real / n as real <= hi as real
  {
  }

  /** The largest recorded duration among `ops`, or 0 when there is none. */
  function MaxDuration(ops: seq<OpRecord>): int {
    if |ops| > 0 then MaxOf(Durations(ops)) else 0
  }

  function MinDuration(ops: seq<OpRecord>): int {
    if |ops| > 0 then MinOf(Durations(ops)) else 0
  }

  /** Mean duration of `ops` as an exact real, or 0 when there is none. */
  function MeanDuration(ops: seq<OpRecord>): real {
    if |ops| > 0 then Sum(Durations(ops)) as real / |ops| as real else 0.0
  }

  /** The latency figures over the successful entries of `ops`: all 0 when there is
      none; otherwise min and max are durations of successful entries, bound every
      successful duration, and enclose the mean. */
  lemma LatencyBounds(ops: seq<OpRecord>)
    ensures var ok := Successful(ops);
            |ok| == 0 ==> MeanDuration(ok) == 0.0 && MaxDuration(ok) == 0 && MinDuration(ok) == 0
    ensures var ok := Successful(ops);
            |ok| > 0 ==> MinDuration(ok) as real <= MeanDuration(ok) <= MaxDuration(ok) as real
    ensures var ok := Successful(ops);
            forall i :: 0 <= i < |ops| && ops[i].success ==> MinDuration(ok) <= ops[i].duration <= MaxDuration(ok)
    ensures var ok := Successful(ops);
            |ok| > 0 ==> exists i :: 0 <= i < |ops| && ops[i].success && ops[i].duration == MaxDuration(ok)
    ensures var ok := Successful(ops);
            |ok| > 0 ==> exists i :: 0 <= i < |ops| && ops[i].success && ops[i].duration == MinDuration(ok)
  {
    var ok := Successful(ops);
    var ds := Durations(ok);
    forall i | 0 <= i < |ops| && ops[i].success
      ensures ops[i].duration in ds
    {
      var j :| 0 <= j < |ok| && ok[j] == ops[i];
      assert ds[j] == ops[i].duration;
    }
    if |ok| > 0 {
      var hi := MaxOf(ds);
      var lo := MinOf(ds);
      SumBetween(ds, lo, hi);
      DivBetween(lo, hi, Sum(ds), |ds|);
      var jh :| 0 <= jh < |ds| && ds[jh] == hi;
      var jl :| 0 <= jl < |ds| && ds[jl] == lo;
      var ih :| 0 <= ih < |ops| && ops[ih] == ok[jh];
      var il :| 0 <= il < |ops| && ops[il] == ok[jl];
      assert ops[ih].success && ops[ih].duration == hi;
      assert ops[il].success && ops[il].duration == lo;
    }
  }

  /** `successful / total * 100`, which is NaN when the total is zero. */
  datatype Rate = NaN | Percent(value: real)

  function SuccessRate(successful: nat, total: nat): (r: Rate)
    ensures r.NaN? <==> total == 0
    ensures r.Percent? && successful <= total ==> 0.0 <= r.value <= 100.0
    ensures r.Percent? && successful == total ==> r.value == 100.0
    ensures r.Percent? ==> r.value * total as real == successful as real * 100.0
  {
    if total == 0 then NaN
    else
      assert successful <= total ==> (successful as real) / (total as real) <= 1.0;
      Percent(successful as real / total as real * 100.0)
  }

  datatype Stats = Stats(
    totalDuration: int,
    totalOperations: nat,
    successfulOperations: nat,
    failedOperations: nat,
    successRate: Rate,
    averageResponseTime: real,
    maxResponseTime: int,
    minResponseTime: int,
    memoryUsage: Option<MemorySample>,
    cpuUsage: Option<CpuSample>
  )

  function Last<T>(xs: seq<T>): (r: Option<T>)
    ensures r.None? <==> |xs| == 0
    ensures r.Some? ==> r.value == xs[|xs| - 1]
  {
    if |xs| > 0 then Some(xs[|xs| - 1]) else None
  }

  /** Summary statistics at clock reading `now`. Rate and latencies are computed over
      the entries of `operations` that have `success` set; the latest memory and CPU
      samples are reported, or none. Nothing in the monitor changes. */
  function GenerateStats(m: Metrics, now: int): (s: Stats)
    ensures s.totalDuration == now - m.startTime
    ensures s.totalOperations == |m.operations| && s.failedOperations == |m.errors|
    ensures s.successfulOperations <= s.totalOperations
    ensures s.successRate.NaN? <==> |m.operations| == 0
    ensures s.successRate.Percent? ==> 0.0 <= s.successRate.value <= 100.0
    ensures s.successfulOperations == 0 ==>
              s.averageResponseTime == 0.0 && s.maxResponseTime == 0 && s.minResponseTime == 0
    ensures s.successfulOperations > 0 ==>
              s.minResponseTime as real <= s.averageResponseTime <= s.maxResponseTime as real
    ensures forall i :: 0 <= i < |m.operations| && m.operations[i].success ==>
              s.minResponseTime <= m.operations[i].duration <= s.maxResponseTime
    ensures s.successfulOperations > 0 ==>
              (exists i :: 0 <= i < |m.operations| && m.operations[i].success && m.operations[i].duration == s.maxResponseTime)
    ensures s.successfulOperations > 0 ==>
              (exists i :: 0 <= i < |m.operations| && m.operations[i].success && m.operations[i].duration == s.minResponseTime)
    ensures s.memoryUsage == Last(m.memoryUsage) && s.cpuUsage == Last(m.cpuUsage)
  {
    LatencyBounds(m.operations);
    var ok := Successful(m.operations);
    Stats(now - m.startTime, |m.operations|, |ok|, |m.errors|,
          SuccessRate(|ok|, |m.operations|), MeanDuration(ok), MaxDuration(ok), MinDuration(ok),
          Last(m.memoryUsage), Last(m.cpuUsage))
  }

  /** In every log the wrapper builds, the success count equals the operation count,
      so the rate is exactly 100 when anything succeeded and NaN (a division by zero)
      when nothing did; failures are counted only through `errors`. */
  lemma ValidStats(m: Metrics, now: int)
    requires Valid(m)
    ensures GenerateStats(m, now).successfulOperations == GenerateStats(m, now).totalOperations == |m.operations|
    ensures GenerateStats(m, now).failedOperations == |m.errors|
    ensures |m.operations| > 0 ==> GenerateStats(m, now).successRate == Percent(100.0)
    ensures |m.operations| == 0 ==> GenerateStats(m, now).successRate == NaN
  {
    SuccessfulOfValid(m.operations);
  }

  /** Computing the statistics twice without new operations gives the same answer
      except for `totalDuration`, which follows the clock. */
  lemma StatsRepeatable(m: Metrics, now1: int, now2: int)
    ensures GenerateStats(m, now1).(totalDuration := 0) == GenerateStats(m, now2).(totalDuration := 0)
    ensures GenerateStats(m, now2).totalDuration - GenerateStats(m, now1).totalDuration == now2 - now1
  {
  }

  /** A successful monitored call adds one success of duration `d`: the counts grow
      by one, max and min take `d` into account, the mean becomes the weighted mean
      of the old mean and `d`, and the failure count does not move. */
  lemma StatsAfterSuccess<T>(m: Metrics, name: string, clock: Clock, value: T, now: int, m': Metrics)
    requires m' == MonitorDBOperation(m, name, clock, Returned(value)).0
    ensures GenerateStats(m', now).totalOperations == GenerateStats(m, now).totalOperations + 1
    ensures GenerateStats(m', now).successfulOperations == GenerateStats(m, now).successfulOperations + 1
    ensures GenerateStats(m', now).failedOperations == GenerateStats(m, now).failedOperations
    ensures GenerateStats(m', now).maxResponseTime ==
              if GenerateStats(m, now).successfulOperations == 0 || Duration(clock) > GenerateStats(m, now).maxResponseTime
              then Duration(clock) else GenerateStats(m, now).maxResponseTime
    ensures GenerateStats(m', now).minResponseTime ==
              if GenerateStats(m, now).successfulOperations == 0 || Duration(clock) < GenerateStats(m, now).minResponseTime
              then Duration(clock) else GenerateStats(m, now).minResponseTime
    ensures MeanStep(GenerateStats(m, now).averageResponseTime, GenerateStats(m, now).successfulOperations,
                     Duration(clock), GenerateStats(m', now).averageResponseTime)
  {
    var op := OpRecord(name, Duration(clock), true, clock.stamp);
    var ok := Successful(m.operations);
    assert m'.operations == m.operations + [op];
    SuccessfulAppend(m.operations, op);
    assert Successful(m'.operations) == ok + [op];
    MaxAfterSuccess(ok, op);
    MinAfterSuccess(ok, op);
    MeanAfterSuccess(ok, op);
    assert GenerateStats(m, now).successfulOperations == |ok|;
    assert GenerateStats(m, now).averageResponseTime == MeanDuration(ok);
    assert GenerateStats(m', now).averageResponseTime == MeanDuration(ok + [op]);
  }

  /** `mean'` is the mean of `n` values with mean `mean` and one more value `d`. */
  predicate MeanStep(mean: real, n: nat, d: int, mean': real) {
    mean' * (n + 1) as real == mean * n as real + d as real
  }

  /** Adding one success of duration `d` to the successful entries `ok`. */
  lemma MaxAfterSuccess(ok: seq<OpRecord>, op: OpRecord)
    ensures MaxDuration(ok + [op]) ==
              if |ok| == 0 || op.duration > MaxDuration(ok) then op.duration else MaxDuration(ok)
  {
    var ds := Durations(ok);
    assert Durations(ok + [op]) == ds + [op.duration];
    if |ok| > 0 {
      MaxOfAppend(ds, op.duration);
    }
  }

  lemma MinAfterSuccess(ok: seq<OpRecord>, op: OpRecord)
    ensures MinDuration(ok + [op]) ==
              if |ok| == 0 || op.duration < MinDuration(ok) then op.duration else MinDuration(ok)
  {
    var ds := Durations(ok);
    assert Durations(ok + [op]) == ds + [op.duration];
    if |ok| > 0 {
      MinOfAppend(ds, op.duration);
    }
  }

  lemma MeanAfterSuccess(ok: seq<OpRecord>, op: OpRecord)
    ensures MeanStep(MeanDuration(ok), |ok|, op.duration, MeanDuration(ok + [op]))
  {
    var ds := Durations(ok);
    assert Durations(ok + [op]) == ds + [op.duration];
    SumAppend(ds, op.duration);
    var n := |ok| as real;
    assert MeanDuration(ok + [op]) == Sum(ds + [op.duration]) as real / (n + 1.0);
    assert MeanDuration(ok + [op]) * (n + 1.0) == Sum(ds) as real + op.duration as real;
    if |ok| > 0 {
      assert MeanDuration(ok) * n == Sum(ds) as real;
    }
  }

  lemma MaxOfAppend(xs: seq<int>, x: int)
    requires |xs| > 0
    ensures MaxOf(xs + [x]) == if x > MaxOf(xs) then x else MaxOf(xs)
  {
    var ys := xs + [x];
    var m := MaxOf(xs);
    var r := MaxOf(ys);
    assert ys[|xs|] == x;
    assert r >= x;
    var k :| 0 <= k < |xs| && xs[k] == m;
    assert ys[k] == xs[k];
    assert r >= m;
    var j :| 0 <= j < |ys| && ys[j] == r;
    if j < |xs| {
      assert ys[j] == xs[j];
      assert xs[j] <= m;
    }
  }

  lemma MinOfAppend(xs: seq<int>, x: int)
    requires |xs| > 0
    ensures MinOf(xs + [x]) == if x < MinOf(xs) then x else MinOf(xs)
  {
    var ys := xs + [x];
    var m := MinOf(xs);
    var r := MinOf(ys);
    assert ys[|xs|] == x;
    assert r <= x;
    var k :| 0 <= k < |xs| && xs[k] == m;
    assert ys[k] == xs[k];
    assert r <= m;
    var j :| 0 <= j < |ys| && ys[j] == r;
    if j < |xs| {
      assert ys[j] == xs[j];
      assert xs[j] >= m;
    }
  }


  /** A failed monitored call only increments the failure count. */
  lemma StatsAfterFailure(m: Metrics, name: string, clock: Clock, e: Error, now: int)
    ensures var s := GenerateStats(m, now);
            GenerateStats(MonitorDBOperation<int>(m, name, clock, Threw(e)).0, now)
              == s.(failedOperations := s.failedOperations + 1)
  {
  }

  // ---------------------------------------------------------------------------
  // The saved report

  datatype Report = Report(
    timestamp: int,
    stats: Stats,
    operations: seq<OpRecord>,
    errors: seq<ErrorRecord>,
    memoryUsage: seq<MemorySample>,
    cpuUsage: seq<CpuSample>
  )

  /** The report document at clock reading `now`: the current statistics next to the
      monitor's own lists, so the counts in `stats` describe the lists it carries. */
  function BuildReport(m: Metrics, now: int): (r: Report)
    ensures r.timestamp == now
    ensures r.operations == m.operations && r.errors == m.errors
    ensures r.memoryUsage == m.memoryUsage && r.cpuUsage == m.cpuUsage
    ensures r.stats == GenerateStats(m, now)
    ensures r.stats.totalOperations == |r.operations| && r.stats.failedOperations == |r.errors|
    ensures r.stats.memoryUsage == Last(r.memoryUsage) && r.stats.cpuUsage == Last(r.cpuUsage)
  {
    Report(now, GenerateStats(m, now), m.operations, m.errors, m.memoryUsage, m.cpuUsage)
  }
}

=== FILE: replica_init.dfy ===
/** Bootstrap of the three-node replica set.

    The initialisation script asks the first node for the replica-set status; if
    that answers, the set exists and nothing is sent. Otherwise it sends one
    initiate command with the fixed configuration. Every error becomes a `false`
    result, and an outer loop retries every 5 s until a run reports success.
    The one-shot bootstrap sends the initiate command once, with no status check and
    no retry, and only logs a failure.

    The driver's answers are parameters (`InitEnv`); the store itself is
    abstracted to a `Cluster` that is unreachable, reachable without a replica set,
    or reachable with one. */
module ReplicaInit {
  import opened Wrappers
  import opened Topology

  datatype AdminCommand = GetStatus | Initiate(config: ReplicaConfig)

  /** How the driver answers one run of the initialisation script: whether the client
      connects, the status query succeeds, closing after it succeeds, the initiate
      command succeeds, and closing after the initiate succeeds. */
  datatype InitEnv = InitEnv(
    connectOk: bool,
    statusOk: bool,
    closeOk: bool,
    initiateOk: bool,
    closeAfterInitiateOk: bool
  )

  /** What one run did: its result, the admin commands sent in order, and whether
      the client was closed successfully. */
  datatype InitRun = InitRun(initialized: bool, commands: seq<AdminCommand>, closed: bool)

  /** One run of `initReplicaSet`. The status query and the close that follows it
      share one `try`, so a failing close after a successful status query also
      leads to the initiate command. */
  function InitReplicaSet(env: InitEnv): (r: InitRun)
    ensures r.initialized ==> r.closed
    ensures !env.connectOk ==> !r.initialized && r.commands == []
    ensures env.connectOk ==> |r.commands| >= 1 && r.commands[0] == GetStatus
    ensures env.connectOk && env.statusOk && env.closeOk ==> r.initialized && r.commands == [GetStatus]
    ensures env.connectOk && !env.statusOk ==>
              && r.commands == [GetStatus, Initiate(InitScriptConfig())]
              && (r.initialized <==> env.initiateOk && env.closeAfterInitiateOk)
    ensures env.connectOk && env.statusOk && !env.closeOk ==>
              && r.commands == [GetStatus, Initiate(InitScriptConfig())]
              && (r.initialized <==> env.initiateOk && env.closeAfterInitiateOk)
    ensures forall i :: 0 <= i < |r.commands| && r.commands[i].Initiate? ==>
              i == 1 && r.commands[i].config == InitScriptConfig()
  {
    if !env.connectOk then InitRun(false, [], false)
    else if env.statusOk && env.closeOk then InitRun(true, [GetStatus], true)
    else
      var sent := [GetStatus, Initiate(InitScriptConfig())];
      if !env.initiateOk then InitRun(false, sent, false)
      else if env.closeAfterInitiateOk then InitRun(true, sent, true)
      else InitRun(false, sent, false)
  }

  /** The delay `waitForMongo` sleeps after a run that did not succeed. */
  const WaitMs: nat := 5000

  /** `waitForMongo` against the answers of successive runs: it stops at the first
      run that succeeds, exiting with code 0, and sleeps `WaitMs` after every run
      that did not. When no run succeeds the loop is still going (no exit code).
      This is the loop over raw driver answers; `BootstrapLoop` below is the same
      loop over the abstract cluster, where membership carries from run to run. */
  method WaitForMongo(envs: seq<InitEnv>) returns (exitCode: Option<int>, runs: nat, waitedMs: nat)
    ensures runs <= |envs|
    ensures exitCode.Some? <==> exists j :: 0 <= j < |envs| && InitReplicaSet(envs[j]).initialized
    ensures exitCode.Some? ==>
              && exitCode.value == 0
              && 1 <= runs <= |envs|
              && InitReplicaSet(envs[runs - 1]).initialized
              && waitedMs == WaitMs * (runs - 1)
    ensures forall j :: 0 <= j < runs - 1 ==> !InitReplicaSet(envs[j]).initialized
    ensures exitCode.None? ==> runs == |envs| && waitedMs == WaitMs * |envs|
  {
    var i := 0;
    waitedMs := 0;
    while i < |envs|
      invariant 0 <= i <= |envs|
      invariant forall j :: 0 <= j < i ==> !InitReplicaSet(envs[j]).initialized
      invariant waitedMs == WaitMs * i
    {
      if InitReplicaSet(envs[i]).initialized {
        return Some(0), i + 1, waitedMs;
      }
      waitedMs := waitedMs + WaitMs;
      i := i + 1;
    }
    return None, |envs|, waitedMs;
  }

  // ---------------------------------------------------------------------------
  // The store as the scripts see it

  datatype Cluster = Unreachable | Uninitialised | Initialised

  /** The store's view at one run: reachability comes from the network, the
      replica-set membership persists across runs. */
  function ClusterOf(reachable: bool, initialised: bool): (c: Cluster)
    ensures c == Initialised <==> reachable && initialised
    ensures c == Unreachable <==> !reachable
  {
    if !reachable then Unreachable else if initialised then Initialised else Uninitialised
  }

  /** The driver's answers on a given cluster: connecting needs a reachable node and
      the status query answers only once a replica set exists. The initiate command
      is accepted only while none exists and only when `peersUp`: the store checks
      that the other members of the configuration are reachable before it accepts.
      `peersUp` and the two closes are free environment choices. */
  function EnvOn(c: Cluster, peersUp: bool, closeOk: bool, closeAfterInitiateOk: bool): (env: InitEnv)
    ensures env.connectOk <==> c != Unreachable
    ensures env.statusOk <==> c == Initialised
    ensures env.initiateOk <==> c == Uninitialised && peersUp
  {
    InitEnv(c != Unreachable, c == Initialised, closeOk, c == Uninitialised && peersUp, closeAfterInitiateOk)
  }

  /** True when the run's initiate command was accepted by the cluster. */
  predicate InitiateAccepted(c: Cluster, peersUp: bool, r: InitRun) {
    c == Uninitialised && peersUp && Initiate(InitScriptConfig()) in r.commands
  }

  /** Whether a replica set exists after a run on `c` that started with `initialised`. */
  function InitialisedAfter(initialised: bool, c: Cluster, peersUp: bool, r: InitRun): bool {
    initialised || InitiateAccepted(c, peersUp, r)
  }

  /** Against a set that already exists a run sends no initiate command and reports
      success when the client closes; with a failing close it does send the command,
      which the store rejects, so the membership never changes. Against an
      uninitialised set exactly one initiate with the fixed configuration is sent;
      it is accepted iff the peers are up, and the run succeeds iff it was accepted
      and the client closes. An unreachable store sees no command. */
  lemma RunOnCluster(c: Cluster, peersUp: bool, closeOk: bool, closeAfterInitiateOk: bool)
    ensures var r := InitReplicaSet(EnvOn(c, peersUp, closeOk, closeAfterInitiateOk));
            c == Initialised && closeOk ==> r.initialized && Initiate(InitScriptConfig()) !in r.commands
    ensures var r := InitReplicaSet(EnvOn(c, peersUp, closeOk, closeAfterInitiateOk));
            c == Initialised ==> !InitiateAccepted(c, peersUp, r) && (r.initialized <==> closeOk)
    ensures var r := InitReplicaSet(EnvOn(c, peersUp, closeOk, closeAfterInitiateOk));
            c == Uninitialised ==>
              && r.commands == [GetStatus, Initiate(InitScriptConfig())]
              && (InitiateAccepted(c, peersUp, r) <==> peersUp)
              && (r.initialized <==> peersUp && closeAfterInitiateOk)
    ensures var r := InitReplicaSet(EnvOn(c, peersUp, closeOk, closeAfterInitiateOk));
            c == Unreachable ==> r.commands == [] && !r.initialized
  {
  }

  /** Running the script twice on a reachable store: after the first run a replica
      set exists iff it existed before or the first initiate was accepted. If it
      exists, the second run (with a working close) reports success without sending
      an initiate and the membership is unchanged; if the first initiate was
      rejected, the second run sends the initiate again. */
  lemma InitIdempotent(peersUp1: bool, closeOk1: bool, closeAfter1: bool, initialised: bool,
                       peersUp2: bool, closeAfter2: bool)
    ensures var c1 := ClusterOf(true, initialised);
            var r1 := InitReplicaSet(EnvOn(c1, peersUp1, closeOk1, closeAfter1));
            InitialisedAfter(initialised, c1, peersUp1, r1) <==> initialised || peersUp1
    ensures var c1 := ClusterOf(true, initialised);
            var r1 := InitReplicaSet(EnvOn(c1, peersUp1, closeOk1, closeAfter1));
            var i1 := InitialisedAfter(initialised, c1, peersUp1, r1);
            var c2 := ClusterOf(true, i1);
            var r2 := InitReplicaSet(EnvOn(c2, peersUp2, true, closeAfter2));
            i1 ==>
              && r2.initialized
              && Initiate(InitScriptConfig()) !in r2.commands
              && InitialisedAfter(i1, c2, peersUp2, r2) == i1
    ensures var c1 := ClusterOf(true, initialised);
            var r1 := InitReplicaSet(EnvOn(c1, peersUp1, closeOk1, closeAfter1));
            var i1 := InitialisedAfter(initialised, c1, peersUp1, r1);
            var c2 := ClusterOf(true, i1);
            var r2 := InitReplicaSet(EnvOn(c2, peersUp2, true, closeAfter2));
            !i1 ==> Initiate(InitScriptConfig()) in r2.commands
  {
  }

  /** One round of the retry loop on the cluster: whether the first node is reachable,
      whether the other members are up (so an initiate can be accepted), and how the
      two closes behave. */
  datatype Round = Round(reachable: bool, peersUp: bool, closeOk: bool, closeAfterInitiateOk: bool)

  /** Outcome of the retry loop over the cluster. */
  datatype Bootstrap = Bootstrap(exited: bool, initialised: bool, accepted: nat)

  /** The retry loop of `waitForMongo` (as `WaitForMongo` above) driven by the rounds
      on the cluster, from a membership state `initialised`: stops at the first
      successful run, counting accepted initiate commands. */
  function BootstrapLoop(initialised: bool, rounds: seq<Round>): (b: Bootstrap)
    ensures initialised ==> b.initialised
    decreases |rounds|
  {
    if |rounds| == 0 then Bootstrap(false, initialised, 0)
    else
      var rd := rounds[0];
      var c := ClusterOf(rd.reachable, initialised);
      var r := InitReplicaSet(EnvOn(c, rd.peersUp, rd.closeOk, rd.closeAfterInitiateOk));
      var accepted := if InitiateAccepted(c, rd.peersUp, r) then 1 else 0;
      var now := InitialisedAfter(initialised, c, rd.peersUp, r);
      if r.initialized then Bootstrap(true, now, accepted)
      else
        var rest := BootstrapLoop(now, rounds[1..]);
        Bootstrap(rest.exited, rest.initialised, accepted + rest.accepted)
  }

  /** Across all retries the replica set is initiated at most once, never when it
      already existed, and the loop only exits once a replica set exists. */
  lemma {:induction false} BootstrapInitiatesOnce(initialised: bool, rounds: seq<Round>)
    ensures BootstrapLoop(initialised, rounds).accepted <= 1
    ensures initialised ==> BootstrapLoop(initialised, rounds).accepted == 0
    ensures BootstrapLoop(initialised, rounds).accepted == 1 ==> BootstrapLoop(initialised, rounds).initialised
    ensures BootstrapLoop(initialised, rounds).exited ==> BootstrapLoop(initialised, rounds).initialised
    decreases |rounds|
  {
    if |rounds| > 0 {
      var rd := rounds[0];
      var c := ClusterOf(rd.reachable, initialised);
      var r := InitReplicaSet(EnvOn(c, rd.peersUp, rd.closeOk, rd.closeAfterInitiateOk));
      RunOnCluster(c, rd.peersUp, rd.closeOk, rd.closeAfterInitiateOk);
      BootstrapInitiatesOnce(InitialisedAfter(initialised, c, rd.peersUp, r), rounds[1..]);
    }
  }

  /** A round in which the node is reachable, the other members are up and both
      closes work ends the loop. */
  lemma {:induction false} BootstrapExitsOnGoodRound(initialised: bool, rounds: seq<Round>, k: nat)
    requires k < |rounds| && rounds[k] == Round(true, true, true, true)
    ensures BootstrapLoop(initialised, rounds).exited
    decreases k
  {
    var rd := rounds[0];
    var c := ClusterOf(rd.reachable, initialised);
    var r := InitReplicaSet(EnvOn(c, rd.peersUp, rd.closeOk, rd.closeAfterInitiateOk));
    if k > 0 && !r.initialized {
      BootstrapExitsOnGoodRound(InitialisedAfter(initialised, c, rd.peersUp, r), rounds[1..], k - 1);
    }
  }

  /** While the other members stay down, a store without a replica set never gets
      one and the loop never exits, however the closes behave. */
  lemma {:induction false} BootstrapWaitsForPeers(rounds: seq<Round>)
    requires forall i :: 0 <= i < |rounds| ==> !rounds[i].peersUp
    ensures !BootstrapLoop(false, rounds).exited
    ensures !BootstrapLoop(false, rounds).initialised
    ensures BootstrapLoop(false, rounds).accepted == 0
    decreases |rounds|
  {
    if |rounds| > 0 {
      var rd := rounds[0];
      var c := ClusterOf(rd.reachable, false);
      RunOnCluster(c, rd.peersUp, rd.closeOk, rd.closeAfterInitiateOk);
      BootstrapWaitsForPeers(rounds[1..]);
    }
  }

  // ---------------------------------------------------------------------------
  // The one-shot bootstrap

  datatype LogLine = Initiated | InitFailed

  datatype OneShotRun = OneShotRun(commands: seq<AdminCommand>, log: LogLine)

  /** The one-shot bootstrap: connect, send one initiate command with the member list
      built from `[0, 1, 2]`, and log the outcome; a failure is logged, not raised. */
  function OneShotBootstrap(connectOk: bool, initiateOk: bool): (r: OneShotRun)
    ensures |r.commands| <= 1 && GetStatus !in r.commands
    ensures r.commands == [] <==> !connectOk
    ensures r.commands != [] ==> r.commands[0] == Initiate(BootstrapConfig())
    ensures r.log == Initiated <==> connectOk && initiateOk
  {
    if !connectOk then OneShotRun([], InitFailed)
    else OneShotRun([Initiate(BootstrapConfig())], if initiateOk then Initiated else InitFailed)
  }

  /** On a cluster the one-shot bootstrap succeeds exactly against a reachable node
      without a replica set whose peers are up; against an existing set, or while
      the peers are down, its command is rejected and the failure is logged. */
  lemma OneShotOnCluster(reachable: bool, initialised: bool, peersUp: bool)
    ensures var c := ClusterOf(reachable, initialised);
            var r := OneShotBootstrap(c != Unreachable, EnvOn(c, peersUp, true, true).initiateOk);
            && (r.log == Initiated <==> reachable && !initialised && peersUp)
            && (initialised || !peersUp ==> r.log == InitFailed)
  {
  }
}

=== FILE: supervisor.dfy ===
/** Connection supervision of the two service variants.

    Both services call the driver's `connect`; a failed attempt schedules one
    retry after a FIXED delay and the retry is the only way a new attempt starts.
    There is no backoff, no attempt limit and no terminal failure state.
    The listen-first service (10 s delay) starts listening before the first
    attempt; the connect-then-listen service (5 s delay) starts listening only in
    the success branch of an attempt.

    The environment is a sequence of attempt outcomes: the i-th attempt succeeds
    exactly when `outcomes[i]` is true. */
module Supervisor {
  import opened Health

  datatype Variant =
    | ListenFirst      // listen, then connect; retry every 10 s
    | ListenOnConnect  // connect, listen on success; retry every 5 s

  /** Fixed delay before the retry a failed attempt schedules. */
  function RetryDelayMs(v: Variant): (d: nat)
    ensures d == (if v.ListenFirst? then 10000 else 5000)
  {
    match v
    case ListenFirst => 10000
    case ListenOnConnect => 5000
  }

  datatype Phase =
    | Connecting    // an attempt is in flight
    | WaitingRetry  // the last attempt failed; its retry timer is pending
    | Online        // an attempt succeeded; nothing more is scheduled

  datatype SupervisorState = SupervisorState(
    phase: Phase,
    listening: bool,        // the HTTP server has been started
    listenCalls: nat,       // how many times `listen` was called
    attempts: nat,          // connect attempts started so far
    failures: nat,          // connect attempts that failed so far
    pendingTimers: nat,     // retry timers scheduled and not yet fired
    retryDelays: seq<nat>   // the delay of every retry ever scheduled, in order
  )

  /** What holds of every state the process can reach. */
  ghost predicate Valid(v: Variant, s: SupervisorState) {
    && s.pendingTimers == (if s.phase == WaitingRetry then 1 else 0)
    && s.attempts == (if s.phase == WaitingRetry then s.failures else s.failures + 1)
    && |s.retryDelays| == s.failures
    && (forall i :: 0 <= i < |s.retryDelays| ==> s.retryDelays[i] == RetryDelayMs(v))
    && (v.ListenFirst? ==> s.listening && s.listenCalls == 1)
    && (v.ListenOnConnect? ==> (s.listening <==> s.phase == Online) && s.listenCalls == (if s.phase == Online then 1 else 0))
  }

  /** Process start: the listen-first variant listens, then both start the first attempt. */
  function Start(v: Variant): (s: SupervisorState)
    ensures Valid(v, s)
    ensures s.phase == Connecting && s.attempts == 1 && s.pendingTimers == 0
    ensures s.listening <==> v.ListenFirst?
  {
    var listened := v.ListenFirst?;
    SupervisorState(Connecting, listened, if listened then 1 else 0, 1, 0, 0, [])
  }

  /** The in-flight attempt finishes with outcome `ok`. Success listens (in the
      connect-then-listen variant) and schedules nothing; failure schedules exactly
      one retry with the variant's fixed delay. */
  function AttemptFinished(v: Variant, s: SupervisorState, ok: bool): (s': SupervisorState)
    requires Valid(v, s) && s.phase == Connecting
    ensures Valid(v, s')
    ensures s'.attempts == s.attempts
    ensures ok ==> s'.phase == Online && s'.pendingTimers == 0 && s'.retryDelays == s.retryDelays
    ensures ok && v.ListenOnConnect? ==> s'.listenCalls == s.listenCalls + 1
    ensures !ok ==> s'.phase == WaitingRetry && s'.pendingTimers == 1
    ensures !ok ==> s'.retryDelays == s.retryDelays + [RetryDelayMs(v)]
    ensures !ok ==> s'.listening == s.listening && s'.listenCalls == s.listenCalls
  {
    if ok then
      if v.ListenOnConnect? then
        s.(phase := Online, listening := true, listenCalls := s.listenCalls + 1)
      else
        s.(phase := Online)
    else
      s.(phase := WaitingRetry, failures := s.failures + 1, pendingTimers := s.pendingTimers + 1,
         retryDelays := s.retryDelays + [RetryDelayMs(v)])
  }

  /** The pending retry timer fires and starts the next attempt. */
  function RetryFired(v: Variant, s: SupervisorState): (s': SupervisorState)
    requires Valid(v, s) && s.phase == WaitingRetry
    ensures Valid(v, s')
    ensures s'.phase == Connecting && s'.pendingTimers == 0
    ensures s'.attempts == s.attempts + 1 && s'.listening == s.listening
  {
    s.(phase := Connecting, attempts := s.attempts + 1, pendingTimers := s.pendingTimers - 1)
  }

  /** Index of the first successful outcome, or `|outcomes|` if there is none. */
  function FirstSuccess(outcomes: seq<bool>): (k: nat)
    ensures k <= |outcomes|
    ensures forall i :: 0 <= i < k ==> !outcomes[i]
    ensures k < |outcomes| ==> outcomes[k]
    ensures k == |outcomes| <==> true !in outcomes
  {
    if |outcomes| == 0 then 0
    else if outcomes[0] then 0
    else 1 + FirstSuccess(outcomes[1..])
  }

  /** Drives an in-flight attempt through the given outcomes: each failure fires its
      retry timer as soon as there is another outcome to consume. */
  function Drive(v: Variant, s: SupervisorState, outcomes: seq<bool>): (s': SupervisorState)
    requires Valid(v, s) && s.phase == Connecting
    ensures Valid(v, s')
    decreases |outcomes|
  {
    if |outcomes| == 0 then s
    else
      var s1 := AttemptFinished(v, s, outcomes[0]);
      if outcomes[0] || |outcomes| == 1 then s1 else Drive(v, RetryFired(v, s1), outcomes[1..])
  }

  /** The process from start-up through the given attempt outcomes. */
  function Run(v: Variant, outcomes: seq<bool>): (s: SupervisorState)
    ensures Valid(v, s)
  {
    Drive(v, Start(v), outcomes)
  }

  /** Number of attempts the outcomes allow to start: every one up to and including
      the first success, or all of them when none succeeds. */
  function AttemptsMade(outcomes: seq<bool>): nat {
    var k := FirstSuccess(outcomes);
    if k < |outcomes| then k + 1 else if |outcomes| == 0 then 1 else |outcomes|
  }

  /** Exact effect of driving a fresh attempt: the process is online iff some outcome
      succeeds, every outcome before the first success was a failure that scheduled one
      retry, and no attempt beyond the first success is ever started. */
  lemma {:induction false} DriveOutcome(v: Variant, s: SupervisorState, outcomes: seq<bool>)
    requires Valid(v, s) && s.phase == Connecting && |outcomes| > 0
    ensures Drive(v, s, outcomes).phase == Online <==> true in outcomes
    ensures Drive(v, s, outcomes).phase == WaitingRetry <==> true !in outcomes
    ensures Drive(v, s, outcomes).failures == s.failures + FirstSuccess(outcomes)
    ensures Drive(v, s, outcomes).attempts == s.attempts + AttemptsMade(outcomes) - 1
    decreases |outcomes|
  {
    var s1 := AttemptFinished(v, s, outcomes[0]);
    if outcomes[0] || |outcomes| == 1 {
      if !outcomes[0] {
        assert outcomes == [false];
      }
    } else {
      var rest := outcomes[1..];
      DriveOutcome(v, RetryFired(v, s1), rest);
      assert outcomes == [false] + rest;
      assert true in outcomes <==> true in rest;
    }
  }

  /** Retries are unbounded and follow each failure: after the outcomes, the process is
      online iff one succeeded; otherwise every outcome was a failed attempt and exactly
      one retry (of the fixed delay) is pending. `|retryDelays|` retries were scheduled,
      one per failure, and the attempts started are one more than the retries fired. */
  lemma RunOutcome(v: Variant, outcomes: seq<bool>)
    ensures Run(v, outcomes).phase == Online <==> true in outcomes
    ensures true !in outcomes && |outcomes| > 0 ==>
              Run(v, outcomes).attempts == |outcomes| && Run(v, outcomes).pendingTimers == 1
    ensures |Run(v, outcomes).retryDelays| == FirstSuccess(outcomes)
    ensures Run(v, outcomes).attempts == AttemptsMade(outcomes)
    ensures forall i :: 0 <= i < |Run(v, outcomes).retryDelays| ==> Run(v, outcomes).retryDelays[i] == RetryDelayMs(v)
  {
    if |outcomes| > 0 {
      DriveOutcome(v, Start(v), outcomes);
    }
  }

  /** Outcomes after the first success are never consumed: the state after a success
      is the same whatever the environment would have answered later. */
  lemma {:induction false} DriveStopsAtSuccess(v: Variant, s: SupervisorState, outcomes: seq<bool>, later: seq<bool>)
    requires Valid(v, s) && s.phase == Connecting
    requires true in outcomes
    ensures Drive(v, s, outcomes + later) == Drive(v, s, outcomes)
    decreases |outcomes|
  {
    assert (outcomes + later)[0] == outcomes[0];
    if !outcomes[0] {
      assert |outcomes| > 1;
      assert (outcomes + later)[1..] == outcomes[1..] + later;
      var s1 := AttemptFinished(v, s, false);
      DriveStopsAtSuccess(v, RetryFired(v, s1), outcomes[1..], later);
    }
  }

  /** In the connect-then-listen service, `listen` is called at most once and only
      once a connection succeeded; in the listen-first service it is called exactly
      once, before any connect outcome is known. */
  lemma ListenDiscipline(v: Variant, outcomes: seq<bool>)
    ensures Run(v, outcomes).listenCalls <= 1
    ensures v.ListenOnConnect? ==> (Run(v, outcomes).listening <==> true in outcomes)
    ensures v.ListenOnConnect? ==> (Run(v, outcomes).listening ==> Run(v, outcomes).phase == Online)
    ensures v.ListenFirst? ==> Run(v, outcomes).listening && Run(v, outcomes).listenCalls == 1
  {
    RunOutcome(v, outcomes);
  }

  /** The listen-first service reaches "listening while disconnected": after a failed
      first attempt it serves HTTP and reports the store as disconnected. */
  lemma ListeningWhileDisconnected()
    ensures Run(ListenFirst, [false]).listening
    ensures Run(ListenFirst, [false]).phase == WaitingRetry
    ensures ServerHealth(ReadyState(Run(ListenFirst, [false]))).mongodb == "disconnected"
  {
  }

  /** The driver's `readyState` for each phase: 2 while connecting, 1 once
      connected, 0 between attempts. */
  function ReadyState(s: SupervisorState): (r: int)
    ensures r == 1 <==> s.phase == Online
  {
    match s.phase
    case Connecting => 2
    case Online => 1
    case WaitingRetry => 0
  }

  /** `/health` after start-up reports the store connected iff some attempt succeeded. */
  lemma HealthAfterRun(v: Variant, outcomes: seq<bool>, timestamp: string)
    ensures ServerHealth(ReadyState(Run(v, outcomes))).mongodb == "connected" <==> true in outcomes
    ensures AppHealth(ReadyState(Run(v, outcomes)), timestamp).mongodb == "connected" <==> true in outcomes
  {
    RunOutcome(v, outcomes);
  }

  /** Steps of the listen-first service's interrupt handler. */
  datatype ShutdownStep = CloseServer | CloseDb | Exit(code: int)

  /** On SIGINT the HTTP server is closed first; the store connection is closed only
      if it is open (`readyState == 1`); the process exits with code 0 either way. */
  function OnSigint(readyState: int): (steps: seq<ShutdownStep>)
    ensures |steps| >= 2 && steps[0] == CloseServer && steps[|steps| - 1] == Exit(0)
    ensures |steps| == if readyState == 1 then 3 else 2
    ensures CloseDb in steps <==> readyState == 1
    ensures forall i :: 0 <= i < |steps| - 1 ==> !steps[i].Exit?
  {
    [CloseServer] + (if readyState == 1 then [CloseDb] else []) + [Exit(0)]
  }

  /** Interrupting the listen-first service after start-up closes the store
      connection iff some attempt succeeded. */
  lemma SigintAfterRun(outcomes: seq<bool>)
    ensures CloseDb in OnSigint(ReadyState(Run(ListenFirst, outcomes))) <==> true in outcomes
  {
    RunOutcome(ListenFirst, outcomes);
  }
}

=== FILE: topology.dfy ===
/** The fixed three-node replica set the services and bootstrap scripts agree on:
    member host names, the two replica configurations, and the connection
    settings read from the environment with their defaults. */
module Topology {
  import opened Wrappers
  import opened Decimal

  /** Identifier of the replica set used everywhere. */
  const ReplicaSetId: string := "rs0"

  /** Port every replica node listens on. */
  const MongoPort: string := "27017"

  /** Host of the replica member with index `id`: `mongo<id+1>:27017`. */
  function Host(id: nat): (h: string)
    ensures |h| == 5 + |NatToString(id + 1)| + 6
    ensures h[..5] == "mongo" && h[|h| - 6..] == ":" + MongoPort
  {
    "mongo" + NatToString(id + 1) + ":" + MongoPort
  }

  /** The decimal part of a host name built by `Host`. */
  function HostNumber(h: string): string
    requires |h| >= 11
  {
    h[5..|h| - 6]
  }

  /** Distinct member indices get distinct host names (ids are exact integers here;
      the scripts only ever map 0, 1 and 2). */
  lemma HostInjective(a: nat, b: nat)
    ensures Host(a) == Host(b) <==> a == b
  {
    if Host(a) == Host(b) {
      assert HostNumber(Host(a)) == NatToString(a + 1);
      assert HostNumber(Host(b)) == NatToString(b + 1);
      NatToStringInjective(a + 1, b + 1);
    }
  }

  /** The first three host names, spelled out. */
  lemma FirstHosts()
    ensures Host(0) == "mongo1:27017" && Host(1) == "mongo2:27017" && Host(2) == "mongo3:27017"
  {
  }

  /** Member priority in tenths, so that the scripts' 0.5 stays an integer. */
  type Priority = nat

  datatype Member = Member(id: nat, host: string, priority: Option<Priority>)

  datatype ReplicaConfig = ReplicaConfig(setId: string, members: seq<Member>)

  /** The configuration `initReplicaSet` sends: three members, the first one preferred
      as primary with priority 1 (10 tenths), the others 0.5 (5 tenths). */
  function InitScriptConfig(): ReplicaConfig {
    ReplicaConfig(ReplicaSetId, [
      Member(0, "mongo1:27017", Some(10)),
      Member(1, "mongo2:27017", Some(5)),
      Member(2, "mongo3:27017", Some(5))
    ])
  }

  /** The member list the one-shot bootstrap builds by mapping over `ids`: each id
      becomes a member with that `_id`, host `Host(id)` and no explicit priority. */
  function BootstrapMembers(ids: seq<nat>): (ms: seq<Member>)
    ensures |ms| == |ids|
    ensures forall i :: 0 <= i < |ids| ==> ms[i].id == ids[i] && ms[i].host == Host(ids[i])
    ensures forall i :: 0 <= i < |ids| ==> ms[i].priority == None
  {
    seq(|ids|, i requires 0 <= i < |ids| => Member(ids[i], Host(ids[i]), None))
  }

  /** The configuration of the one-shot bootstrap, built from the ids `[0, 1, 2]`. */
  function BootstrapConfig(): ReplicaConfig {
    ReplicaConfig(ReplicaSetId, BootstrapMembers([0, 1, 2]))
  }

  function HostsOf(ms: seq<Member>): (hs: seq<string>)
    ensures |hs| == |ms|
    ensures forall i :: 0 <= i < |ms| ==> hs[i] == ms[i].host
  {
    seq(|ms|, i requires 0 <= i < |ms| => ms[i].host)
  }

  /** Member ids are the positions 0, 1, 2, ... of the list. */
  predicate IdsArePositions(ms: seq<Member>) {
    forall i :: 0 <= i < |ms| ==> ms[i].id == i
  }

  /** No two members share a host. */
  predicate HostsDistinct(ms: seq<Member>) {
    forall i, j :: 0 <= i < j < |ms| ==> ms[i].host != ms[j].host
  }

  /** Member ids strictly increase along the list. */
  predicate IdsAscending(ms: seq<Member>) {
    forall i, j :: 0 <= i < j < |ms| ==> ms[i].id < ms[j].id
  }

  /** For any list of pairwise distinct ids the bootstrap's member hosts are pairwise
      distinct, with ids as exact integers. */
  lemma BootstrapHostsDistinct(ids: seq<nat>)
    requires forall i, j :: 0 <= i < j < |ids| ==> ids[i] != ids[j]
    ensures HostsDistinct(BootstrapMembers(ids))
  {
    var ms := BootstrapMembers(ids);
    forall i, j | 0 <= i < j < |ms|
      ensures ms[i].host != ms[j].host
    {
      HostInjective(ids[i], ids[j]);
    }
  }

  /** The one-shot bootstrap's configuration: set `rs0`, exactly three members whose
      ids are their positions in ascending order, hosts `mongo1..3:27017`, all distinct. */
  lemma BootstrapConfigShape()
    ensures BootstrapConfig().setId == "rs0"
    ensures |BootstrapConfig().members| == 3
    ensures IdsArePositions(BootstrapConfig().members)
    ensures IdsAscending(BootstrapConfig().members)
    ensures HostsDistinct(BootstrapConfig().members)
    ensures HostsOf(BootstrapConfig().members) == ["mongo1:27017", "mongo2:27017", "mongo3:27017"]
  {
    var ms := BootstrapConfig().members;
    BootstrapHostsDistinct([0, 1, 2]);
    FirstHosts();
    assert HostsOf(ms) == [Host(0), Host(1), Host(2)];
  }

  /** The initialisation script's configuration: set `rs0`, three members with ids
      0, 1, 2, the same hosts as the one-shot bootstrap, and member 0 strictly the
      most preferred primary. */
  lemma InitScriptConfigShape()
    ensures InitScriptConfig().setId == "rs0"
    ensures |InitScriptConfig().members| == 3
    ensures IdsArePositions(InitScriptConfig().members)
    ensures IdsAscending(InitScriptConfig().members)
    ensures HostsDistinct(InitScriptConfig().members)
    ensures HostsOf(InitScriptConfig().members) == HostsOf(BootstrapConfig().members)
    ensures forall i :: 0 <= i < |InitScriptConfig().members| ==>
              InitScriptConfig().members[i].priority.Some? && InitScriptConfig().members[i].host == Host(i)
    ensures forall i :: 1 <= i < |InitScriptConfig().members| ==>
              InitScriptConfig().members[i].priority.value < InitScriptConfig().members[0].priority.value
  {
    var ms := InitScriptConfig().members;
    BootstrapConfigShape();
    FirstHosts();
    assert ms[0].host == Host(0) && ms[1].host == Host(1) && ms[2].host == Host(2);
    assert HostsOf(ms) == ["mongo1:27017", "mongo2:27017", "mongo3:27017"];
    HostInjective(0, 1);
    HostInjective(0, 2);
    HostInjective(1, 2);
  }

  /** Joins host names with commas, as in a multi-host connection string. */
  function JoinHosts(hs: seq<string>): string
    decreases |hs|
  {
    if |hs| == 0 then "" else if |hs| == 1 then hs[0] else hs[0] + "," + JoinHosts(hs[1..])
  }

  /** The host list of the default connection string, as written in the services. */
  const DefaultHostList: string := "mongo1:27017" + "," + "mongo2:27017" + "," + "mongo3:27017"

  /** The connection string both services fall back to:
      `mongodb://mongo1:27017,mongo2:27017,mongo3:27017/myDatabase?replicaSet=rs0`. */
  const DefaultMongoUri: string := "mongodb://" + DefaultHostList + "/myDatabase?replicaSet=" + ReplicaSetId

  /** The default connection string names exactly the bootstrap members' hosts, in
      order, and the replica set `rs0`. */
  lemma DefaultMongoUriNamesReplicaSet()
    ensures DefaultMongoUri ==
      "mongodb://" + JoinHosts(HostsOf(BootstrapConfig().members)) + "/myDatabase?replicaSet=" + ReplicaSetId
  {
    BootstrapConfigShape();
    JoinDefaultHosts();
  }

  lemma JoinDefaultHosts()
    ensures JoinHosts(["mongo1:27017", "mongo2:27017", "mongo3:27017"]) == DefaultHostList
  {
  }

  /** JavaScript's `value || fallback` on an environment string: an unset or empty
      variable yields the fallback. */
  function EnvOr(env: Option<string>, fallback: string): (r: string)
    ensures env.Some? && env.value != "" ==> r == env.value
    ensures env.None? || env.value == "" ==> r == fallback
  {
    if env.Some? && env.value != "" then env.value else fallback
  }

  /** The connection string a service uses for a given `MONGODB_URI` setting. */
  function ResolveMongoUri(env: Option<string>): (uri: string)
    ensures env.None? ==> uri == DefaultMongoUri
    ensures env.Some? && env.value != "" ==> uri == env.value
    ensures env.Some? && env.value == "" ==> uri == DefaultMongoUri
    ensures uri != ""
  {
    EnvOr(env, DefaultMongoUri)
  }

  /** The listening port of the connect-then-listen service: the `PORT` string as given,
      or the number 3000. */
  datatype PortSetting = EnvPort(text: string) | DefaultPort(number: nat)

  const DefaultAppPort: nat := 3000

  function ResolvePort(env: Option<string>): (p: PortSetting)
    ensures p.DefaultPort? <==> env.None? || env.value == ""
    ensures p.DefaultPort? ==> p.number == 3000
    ensures p.EnvPort? ==> env == Some(p.text)
  {
    if env.Some? && env.value != "" then EnvPort(env.value) else DefaultPort(DefaultAppPort)
  }
}

=== FILE: wrappers.dfy ===
/** The optional value shared by the other modules. */
module Wrappers {

  /** A value that may be absent: JavaScript's `undefined`/`null` in the model. */
  datatype Option<+T> = None | Some(value: T)
}
